=== FILE: README.md ===
# Storyboard frames — a Dafny model

The system turns a written story into a storyboard. A chat model is asked to
break the story into short scene descriptions, one per line. The answer is
normalised into a list of 20 to 60 scenes. For each scene an image model is
asked for a picture, and the decoded bytes are written to the frames
directory as `frame_001.png`, `frame_002.png`, ….

This project models that core in Dafny 4.11 and proves its properties:

- `optional.dfy` (module `Optional`): the `Option` and `Result` types.
- `sequences.dfy` (module `Sequences`): generic equations on sequences that
  the proofs use as stepping stones.
- `strings.dfy` (module `Strings`): Python's notions of whitespace (`str.strip`)
  and line boundaries (`str.splitlines`), stripping, line splitting and
  string ordering.
- `decimal.dfy` (module `Decimal`): decimal digits, the value they read
  back as, and the zero-padded three-digit field of `f"{number:03d}"`.
- `scene_breakdown.dfy` (module `SceneBreakdown`): line cleaning
  (`_clean_scene_line`), `parse_scenes`, the padding and truncation to
  20–60 scenes, and `break_story_into_scenes` after the chat call.
- `frame_generator.dfy` (module `FrameGenerator`): the frames directory as a
  map from file name to bytes, the `frame_*.png` glob, frame names,
  `_next_frame_path` and `generate_image` after the image call.
- `pipeline.dfy` (module `Pipeline`): `generate_frames_from_story`, the
  loop that renders every scene as frame `1, 2, …` (the HTTP endpoint runs
  the same loop).

The remote services are parameters. The chat completion is given as the
sequence of its choices' message contents. The image service is a function
from prompt to base64 payload, and base64 decoding is a function that yields
the bytes or nothing.

Two behaviours of the code are worth knowing:

- The cleaning pattern `^[-*\d+:.\s]+` also treats `+` as a list-marker
  character, next to digits, `-`, `*`, `:`, `.` and whitespace.
- Without an index, `_next_frame_path` numbers the new frame one more than
  the count of files the glob finds. The name is fresh when the existing
  frames are exactly `frame_001.png` … `frame_k.png` (`FallbackIsFresh`).
  When the count plus one is the number of an existing frame, that file is
  overwritten (`FallbackOverwritesAfterGap`, with only `frame_002.png`
  present).

## Model

| member | source | states |
|---|---|---|
| Strings.TrimStart | app/scene_breakdown.py:22 | the left half of `.strip()`: the result is a suffix of the input and does not start with whitespace |
| Strings.TrimStartDropsSpace | app/scene_breakdown.py:22 | every character removed from the front is whitespace, so the cut is the longest whitespace prefix |
| Strings.TrimEnd | app/scene_breakdown.py:22 | the right half of `.strip()`: the result is a prefix of the input and does not end with whitespace |
| Strings.TrimEndDropsSpace | app/scene_breakdown.py:22 | every character removed from the back is whitespace |
| Strings.Strip | app/scene_breakdown.py:22 | `.strip()`: the result is no longer than the line and neither starts nor ends with whitespace |
| Strings.StripIsCut | app/scene_breakdown.py:22 | `.strip()` removes only whitespace: the result is a contiguous piece of the line with only whitespace before and after it |
| Strings.BreakIndex | app/scene_breakdown.py:29 | the first line boundary: the text before it contains none and the character there is one |
| Strings.SplitLines | app/scene_breakdown.py:29 | `splitlines` never yields more lines than the text has characters; where lines end is stated by `SplitLinesAt`, `SplitLinesAtCRLF` and `SplitLinesBlankLine` |
| Strings.SplitLinesNoBreaks | app/scene_breakdown.py:29 | no line produced by `splitlines` contains a line-boundary character |
| Strings.SplitLinesKeepsText | app/scene_breakdown.py:29 | concatenating the lines gives back exactly the text with its boundary characters removed, so no character is lost, added or reordered |
| Strings.SplitJoinLines | app/scene_breakdown.py:29 | round trip: splitting non-empty, boundary-free lines joined by `"\n"` gives back the same lines |
| Strings.SplitLinesAt | app/scene_breakdown.py:29 | every boundary character (`\n`, `\r`, `\x0b`, `\x0c`, `\x1c`–`\x1e`, `\x85`, `\u2028`, `\u2029`) ends the line before it, even an empty one; a `\r` does so alone when no `\n` follows |
| Strings.SplitLinesAtCRLF | app/scene_breakdown.py:29 | `\r\n` is a single boundary: it ends one line and opens no empty one |
| Strings.SplitLinesBlankLine | app/scene_breakdown.py:29 | a blank line between two lines is kept as an empty line, `a\n\nb` giving `a`, `""`, `b` |
| Strings.LexLessIrreflexive | app/frame_generator.py:22 | string order (as `sorted` uses) never puts a name before itself |
| Strings.LexLessTotal | app/frame_generator.py:22 | string order is a strict total order: of two different names exactly one sorts first, and of two equal names neither does |
| Strings.LexLessCommonPrefix | app/frame_generator.py:22 | a shared prefix does not change how two names compare |
| Strings.LexLessDecided | app/frame_generator.py:22 | once two equally long parts differ, what follows them does not change how the names compare |
| Strings.LexLess3 | app/frame_generator.py:22 | three-character strings, such as padded frame numbers, compare digit by digit from the left |
| Decimal.Digits | app/scene_breakdown.py:66 | `str(n)`: non-empty decimal digits without a leading zero that read back as `n`, with exactly as many digits as `n` needs |
| Decimal.DigitsOfValue | app/scene_breakdown.py:66 | round trip: any digit string without a leading zero is the decimal form of its value |
| Decimal.DigitsWidth | app/frame_generator.py:24 | a number's decimal form fits in three characters exactly when the number is below 1000 |
| Decimal.Pad3 | app/frame_generator.py:24 | `f"{n:03d}"`: digits that read back as `n`, exactly three when `n < 1000`, more and without a leading zero otherwise |
| Decimal.Pad3OfValue | app/frame_generator.py:24 | round trip: every three-digit field is the padded form of its value |
| Decimal.Pad3Injective | app/frame_generator.py:24 | different numbers get different padded fields |
| Decimal.Pad3Ordered | app/frame_generator.py:24 | below 1000, padded fields compare as strings exactly as the numbers compare |
| SceneBreakdown.StripListMarker | app/scene_breakdown.py:22 | the regex substitution: the result is a suffix of the line and does not start with a marker character |
| SceneBreakdown.StripListMarkerDropsMarkers | app/scene_breakdown.py:22 | everything the substitution removes is a marker character, so the removed run is the longest one |
| SceneBreakdown.CleanSceneLine | app/scene_breakdown.py:20-23 | a cleaned line is empty or a normalised scene (no leading marker or whitespace, no trailing whitespace) and is never longer than the line |
| SceneBreakdown.CleanCharacterization | app/scene_breakdown.py:20-23 | `r` is the cleaned line exactly when `r` is empty or normalised and is cut from the line by dropping a marker prefix and a whitespace suffix |
| SceneBreakdown.CleanKeepsScene | app/scene_breakdown.py:20-23 | a normalised scene is left as it is |
| SceneBreakdown.CleanIdempotent | app/scene_breakdown.py:20-23 | cleaning twice is the same as cleaning once |
| SceneBreakdown.CleanFixedPoint | app/scene_breakdown.py:20-23 | a line is unchanged by cleaning exactly when it is empty or a normalised scene |
| SceneBreakdown.CleanMarkedLine | app/scene_breakdown.py:22 | any run of bullet, number or whitespace characters in front of a normalised scene is removed entirely |
| SceneBreakdown.CleanDropsLeadingNumber | app/scene_breakdown.py:22 | a leading number is taken for a list marker: `"3 knights ride out"` cleans to `"knights ride out"` |
| SceneBreakdown.KeepScenes | app/scene_breakdown.py:29-32 | the loop keeps at most one scene per line, so there are never more scenes than lines |
| SceneBreakdown.KeepScenesAreScenes | app/scene_breakdown.py:29-32 | every kept line is a normalised scene |
| SceneBreakdown.KeepScenesAppend | app/scene_breakdown.py:29-32 | lines are handled one by one, in order: the scenes of two blocks of lines are the scenes of the first followed by those of the second |
| SceneBreakdown.KeepScenesOfScenes | app/scene_breakdown.py:29-32 | lines that are already normalised scenes are all kept, unchanged and in order |
| SceneBreakdown.KeepScenesMember | app/scene_breakdown.py:29-32 | a string is among the scenes exactly when it is non-empty and is the cleaned form of some line |
| SceneBreakdown.ParseScenes | app/scene_breakdown.py:26-33 | there are never more scenes than lines |
| SceneBreakdown.ParseScenesAreScenes | app/scene_breakdown.py:26-33 | every parsed scene is non-empty and normalised |
| SceneBreakdown.ParseScenesLoop | app/scene_breakdown.py:26-33 | the appending loop over the lines computes exactly the functional parse |
| SceneBreakdown.ParseScenesEmpty | app/scene_breakdown.py:26-33 | empty text has no scenes |
| SceneBreakdown.Placeholder | app/scene_breakdown.py:66 | each placeholder `"Additional scene k"` is itself a normalised scene |
| SceneBreakdown.PlaceholderInjective | app/scene_breakdown.py:66 | different placeholder numbers give different texts |
| SceneBreakdown.Padding | app/scene_breakdown.py:65-66 | exactly as many placeholders as are missing |
| SceneBreakdown.PaddingEntries | app/scene_breakdown.py:66 | the placeholders are numbered from 1 upwards, in order |
| SceneBreakdown.BoundScenes | app/scene_breakdown.py:62-70 | the result has 20 to 60 entries: 20 when there were fewer, the same number when within bounds, 60 when there were more |
| SceneBreakdown.BoundScenesEntries | app/scene_breakdown.py:63-68 | the scenes kept are the leading ones, unchanged and in order, and every added entry is the next placeholder |
| SceneBreakdown.BoundScenesIdentity | app/scene_breakdown.py:62-70 | the list is returned unchanged exactly when it already has 20 to 60 scenes |
| SceneBreakdown.BoundScenesIdempotent | app/scene_breakdown.py:62-70 | bounding an already bounded list changes nothing |
| SceneBreakdown.BoundScenesKeepsScenes | app/scene_breakdown.py:62-70 | if every input is a normalised scene, so is every output |
| SceneBreakdown.BreakStoryIntoScenes | app/scene_breakdown.py:59-70 | a story always breaks into 20 to 60 scenes, whatever the chat model answers |
| SceneBreakdown.BreakStoryScenes | app/scene_breakdown.py:59-70 | every scene of a story is a non-empty, normalised description |
| SceneBreakdown.BreakStoryUsesFirstChoice | app/scene_breakdown.py:59 | only the first choice of the completion matters |
| SceneBreakdown.BreakStoryOfCleanAnswer | app/scene_breakdown.py:59-70 | an answer of 20 to 60 clean lines, one per line, breaks into exactly those lines in order |
| SceneBreakdown.BreakStoryTruncates | app/scene_breakdown.py:67-68 | with more than 60 parsed scenes (75 here) the story keeps the first 60 |
| SceneBreakdown.ParseNumberedAnswer | app/scene_breakdown.py:26-33 | an indented, numbered three-line answer with blank first and last lines parses to the three descriptions |
| SceneBreakdown.BreakStoryNumberedAnswer | tests/test_scene_breakdown.py:42-56 | for any three clean descriptions in that layout the story is the three descriptions followed by placeholders 1 to 17, 20 entries in all |
| SceneBreakdown.BreakStoryThreeNumberedLines | tests/test_scene_breakdown.py:42-56 | the test's own answer gives its three scenes first and is padded to 20 |
| FrameGenerator.MatchesFrameGlobShape | app/frame_generator.py:22 | the pattern `frame_*.png` matches a name exactly when it is `frame_`, then any text (even none), then `.png` |
| FrameGenerator.GlobFrames | app/frame_generator.py:22 | the glob finds a file exactly when it is in the directory and its name is `frame_`, any text, `.png` |
| FrameGenerator.GlobFramesExample | app/frame_generator.py:22 | `frame_abc.png` is found although it carries no number, while `frame_001.jpg` and `notes.txt` are not |
| FrameGenerator.FrameName | app/frame_generator.py:24 | the name built for a number is one the glob finds, and reading its number field back yields that number |
| FrameGenerator.FrameNameMatchesGlob | app/frame_generator.py:22-24 | every name `_next_frame_path` builds is found by the glob, its middle is the number padded to three digits, and below 1000 all names have the same length |
| FrameGenerator.FrameNameRoundTrip | app/frame_generator.py:24 | reading a name back yields `number` exactly when the name is the frame name of `number` |
| FrameGenerator.FrameNameInjective | app/frame_generator.py:24 | different frame numbers never share a file name |
| FrameGenerator.FrameNameOrdered | app/frame_generator.py:22-24 | below 1000, frame names sort as strings in the order of their numbers |
| FrameGenerator.FrameNameOrderEndsAt1000 | app/frame_generator.py:22-24 | from 1000 on the padding no longer keeps the order: `frame_1000.png` sorts before `frame_999.png` |
| FrameGenerator.EnsureFramesDir | app/utils.py:7-9 | afterwards the directory exists, and its files are as before |
| FrameGenerator.FrameNumber | app/frame_generator.py:19-23 | the chosen frame number is always at least 1 |
| FrameGenerator.NextFramePath | app/frame_generator.py:16-25 | the directory exists afterwards and no file changes |
| FrameGenerator.NextFramePathNumber | app/frame_generator.py:16-25 | the name matches the glob and reads back as the index when that is positive, otherwise as one more than the number of frames found |
| FrameGenerator.GenerateImage | app/frame_generator.py:57-63 | an undecodable payload fails before anything is written; otherwise the decoded bytes are returned |
| FrameGenerator.GenerateImageWrites | app/frame_generator.py:58-63 | after a successful render the chosen name holds the returned bytes, exactly that name is added (or overwritten) and no other file changes |
| FrameGenerator.GenerateImageAt | app/frame_generator.py:19-20 | with a positive index `k` the bytes go to frame `k`, whatever frames already exist |
| FrameGenerator.GenerateImageValid | app/frame_generator.py:60-61 | a render never leaves files in a directory that does not exist |
| FrameGenerator.FrameNames | app/frame_generator.py:22-24 | frames 1 to `k` are `k` distinct names, each reading back as a number from 1 to `k` |
| FrameGenerator.FallbackIsFresh | app/frame_generator.py:21-23 | when the existing frames are exactly 1 to `k`, the fallback picks frame `k + 1`, which does not exist yet |
| FrameGenerator.FallbackOverwritesAfterGap | app/frame_generator.py:21-24 | when only `frame_002.png` exists the fallback counts one frame, picks number 2 and so overwrites that file |
| FrameGenerator.RenderFakeImage | tests/test_frame_generator.py:59-67 | rendering with index 1 returns the decoded bytes and stores them under `frame_001.png` |
| Pipeline.RenderScenes | app/main.py:21-23 | the loop finishes without error exactly when every scene's image payload decodes |
| Pipeline.RenderScenesWrites | app/main.py:21-23 | a complete loop leaves the old files overlaid with exactly the frames it wrote |
| Pipeline.WrittenAt | app/main.py:21-23 | the `i`-th scene's image ends up under the `i`-th frame key, later scenes never overwriting earlier ones |
| Pipeline.WrittenOnly | app/main.py:21-23 | the loop writes no key other than those of its frame numbers |
| Pipeline.GenerateFramesFromStory | app/main.py:18-24 | the reported count is the number of scenes, between 20 and 60, and the run fails exactly when some scene's image fails to decode |
| Pipeline.StoryFrames | app/main.py:18-24 | after a complete run, frame `i + 1` holds the image of scene `i` |
| Pipeline.StoryFramesOnly | app/main.py:18-24 | after a complete run every file either existed before or is one of frames 1 to the number of scenes |
| Pipeline.StoryFramesOrdered | app/main.py:21-24 | the frames of one story have distinct names that sort as strings in scene order |

## Left out

- The chat and image services (the `OpenAI` clients) are parameters. The completion is the list of its choices' contents, and the image service is a function from prompt to payload. The request details sent to them (model names, `temperature`, the prompt template, `size`) are left out with them.
- Configuration (`app/config.py`) is left out together with the clients. The error `settings.client()` raises on a missing API key, inside both `break_story_into_scenes` and `generate_image`, is not modelled.
- The command-line front end (`parse_args`, `load_story`, `main`) and the HTTP wrapper in `app/api.py` are left out. They only read inputs and run the modelled loop.
- The `print` of each scene in the driver loop is left out, because it is output only.
- Base64 decoding is a parameter that yields the bytes or nothing, because the codec itself is a library function.
- `message.content` being `None`, and an image response with no `data` entry, are left out. The Python code raises there, and the model takes the content to be text and the payload to exist.
- SceneBreakdown.IsMarkerChar: `\d` is taken as the ASCII digits. Python's pattern also matches other Unicode decimal digits, and that table is not modelled.
- Strings.IsSpace: whitespace is the fixed set of characters `str.isspace` accepts, not derived from the Unicode database.
- FrameGenerator.GlobFrames: the glob is modelled on file names only. Directories named like frames and the sorted order are left out, because `_next_frame_path` uses only the count of what it finds. Matching is case-sensitive, as pathlib does on POSIX; on Windows the glob also counts names that differ only in case, such as `FRAME_001.PNG`.
- Pipeline.GenerateFramesFromStory: a decoding error is returned as the run's failure, together with the store as written so far. The Python code raises there instead of returning the count, so the count means something only when the run has no failure.
- Pipeline.RenderScenes: a failed decode stops the loop, as the exception does. Files written by earlier iterations stay, and nothing is rolled back.
- Filesystem errors (permissions, a full disk) and concurrent writers to the frames directory are left out. The model has a single in-memory directory.
- Pipeline.RenderScenes: the image service is a function of the prompt, so equal scenes always get equal payloads, and a failure of the service itself (which aborts the loop in the source) shows up only as a payload that does not decode.

=== FILE: decimal.dfy ===
/** Decimal text of natural numbers: Python's `str(n)`, the zero-padded
    `f"{n:03d}"`, and the value a digit string denotes. */
module Decimal {
  import opened Strings

  predicate AllDigits(s: string) {
    forall k | 0 <= k < |s| :: IsDigit(s[k])
  }

  function DigitChar(d: nat): (c: char)
    requires d < 10
    ensures IsDigit(c)
  {
    ('0' as int + d) as char
  }

  function DigitValue(c: char): (d: nat)
    requires IsDigit(c)
    ensures d < 10 && DigitChar(d) == c
  {
    c as int - '0' as int
  }

  function Pow10(k: nat): (p: nat)
    ensures p >= 1
  {
    if k == 0 then 1 else 10 * Pow10(k - 1)
  }

  /** The value of a string of decimal digits; leading zeros are allowed
      and the empty string denotes 0. */
  function Value(s: string): nat
    requires AllDigits(s)
  {
    if s == [] then 0 else 10 * Value(s[..|s| - 1]) + DigitValue(s[|s| - 1])
  }

  /** `str(n)`: the shortest decimal text of `n`, read back as `n`. */
  function Digits(n: nat): (s: string)
    ensures |s| >= 1 && AllDigits(s)
    ensures |s| > 1 ==> s[0] != '0'
    ensures Value(s) == n
    ensures n < Pow10(|s|)
    ensures |s| == 1 || Pow10(|s| - 1) <= n
    decreases n
  {
    if n < 10 then [DigitChar(n)]
    else
      var t := Digits(n / 10);
      var s := t + [DigitChar(n % 10)];
      assert s[..|s| - 1] == t;
      s
  }

  lemma {:induction false} Pow10Monotone(j: nat, k: nat)
    requires j <= k
    ensures Pow10(j) <= Pow10(k)
    decreases k
  {
    if j < k {
      Pow10Monotone(j, k - 1);
    }
  }

  /** `str(n)` has at most three digits exactly when `n` is below 1000. */
  lemma DigitsWidth(n: nat)
    ensures |Digits(n)| <= 3 <==> n < 1000
  {
    var s := Digits(n);
    if |s| <= 3 {
      Pow10Monotone(|s|, 3);
    } else {
      Pow10Monotone(3, |s| - 1);
    }
  }

  /** A digit string without a superfluous leading zero is what `str`
      prints for its value. */
  lemma {:induction false} DigitsOfValue(s: string)
    requires |s| >= 1 && AllDigits(s)
    requires |s| == 1 || s[0] != '0'
    ensures Digits(Value(s)) == s
    decreases |s|
  {
    if |s| > 1 {
      var t := s[..|s| - 1];
      assert t[0] == s[0];
      DigitsOfValue(t);
      ValuePositive(t);
      var n := Value(s);
      assert n / 10 == Value(t) && n % 10 == DigitValue(s[|s| - 1]);
      assert s == t + [s[|s| - 1]];
    }
  }

  lemma {:induction false} ValuePositive(s: string)
    requires |s| >= 1 && AllDigits(s) && s[0] != '0'
    ensures Value(s) >= 1
    decreases |s|
  {
    if |s| > 1 {
      assert s[..|s| - 1][0] == s[0];
      ValuePositive(s[..|s| - 1]);
    }
  }

  function Zeros(k: nat): (z: string)
    ensures |z| == k && AllDigits(z)
    ensures forall i | 0 <= i < k :: z[i] == '0'
  {
    seq(k, i => '0')
  }

  /** Leading zeros do not change the value of a digit string. */
  lemma {:induction false} ValueLeadingZeros(k: nat, s: string)
    requires AllDigits(s)
    ensures Value(Zeros(k) + s) == Value(s)
    decreases |s|
  {
    var z := Zeros(k);
    if s == [] {
      assert z + s == z;
      ValueZeros(k);
    } else {
      var t := s[..|s| - 1];
      assert (z + s)[..|z + s| - 1] == z + t;
      ValueLeadingZeros(k, t);
    }
  }

  lemma {:induction false} ValueZeros(k: nat)
    ensures Value(Zeros(k)) == 0
    decreases k
  {
    if k > 0 {
      assert Zeros(k)[..k - 1] == Zeros(k - 1);
      ValueZeros(k - 1);
    }
  }

  /** `f"{n:03d}"`: at least three digits, zero-padded on the left, never
      truncated, and read back as `n`. */
  function Pad3(n: nat): (s: string)
    ensures AllDigits(s) && Value(s) == n
    ensures n < 1000 ==> |s| == 3
    ensures n >= 1000 ==> |s| >= 4 && s[0] != '0'
  {
    var d := Digits(n);
    DigitsWidth(n);
    if |d| < 3 then
      ValueLeadingZeros(3 - |d|, d);
      Zeros(3 - |d|) + d
    else d
  }

  /** The value of a three-digit string, place by place. */
  lemma Value3(s: string)
    requires |s| == 3 && AllDigits(s)
    ensures Value(s) == 100 * DigitValue(s[0]) + 10 * DigitValue(s[1]) + DigitValue(s[2])
  {
    var s1, s2 := s[..1], s[..2];
    assert s1[..0] == [] && s2[..1] == s1 && s[..2] == s2;
    assert Value(s1) == DigitValue(s[0]);
    assert Value(s2) == 10 * DigitValue(s[0]) + DigitValue(s[1]);
  }

  lemma Positional(n: nat, a: nat, b: nat, c: nat)
    requires a < 10 && b < 10 && c < 10
    requires n == 100 * a + 10 * b + c
    ensures n / 100 == a && n / 10 % 10 == b && n % 10 == c
  {
    assert n / 10 == 10 * a + b;
  }

  /** Below 1000 the padded field is the hundreds, tens and units digits. */
  lemma Pad3Positional(n: nat)
    requires n < 1000
    ensures Pad3(n) == [DigitChar(n / 100), DigitChar(n / 10 % 10), DigitChar(n % 10)]
  {
    var s := Pad3(n);
    Value3(s);
    Positional(n, DigitValue(s[0]), DigitValue(s[1]), DigitValue(s[2]));
  }

  /** Three-digit fields read back as their digits. */
  lemma Pad3OfValue(s: string)
    requires |s| == 3 && AllDigits(s)
    ensures Pad3(Value(s)) == s
  {
    var n := Value(s);
    Value3(s);
    Positional(n, DigitValue(s[0]), DigitValue(s[1]), DigitValue(s[2]));
    Pad3Positional(n);
  }

  /** The padded field determines the number. */
  lemma Pad3Injective(m: nat, n: nat)
    requires Pad3(m) == Pad3(n)
    ensures m == n
  {}

  /** Below 1000, comparing padded fields as strings compares the numbers. */
  lemma Pad3Ordered(m: nat, n: nat)
    requires m < 1000 && n < 1000
    ensures LexLess(Pad3(m), Pad3(n)) <==> m < n
  {
    Pad3Positional(m);
    Pad3Positional(n);
    LexLess3(Pad3(m), Pad3(n));
    var a1, b1, c1 := m / 100, m / 10 % 10, m % 10;
    var a2, b2, c2 := n / 100, n / 10 % 10, n % 10;
    DigitCharOrdered(a1, a2);
    DigitCharOrdered(b1, b2);
    DigitCharOrdered(c1, c2);
    Decompose(m);
    Decompose(n);
    PlaceOrder(a1, b1, c1, a2, b2, c2);
  }

  lemma Decompose(n: nat)
    requires n < 1000
    ensures n == 100 * (n / 100) + 10 * (n / 10 % 10) + n % 10
    ensures n / 100 < 10
  {
    var q := n / 10;
    assert n == 10 * q + n % 10;
    assert q / 10 == n / 100;
    assert q == 10 * (q / 10) + q % 10;
  }

  lemma PlaceOrder(a1: nat, b1: nat, c1: nat, a2: nat, b2: nat, c2: nat)
    requires b1 < 10 && c1 < 10 && b2 < 10 && c2 < 10
    ensures 100 * a1 + 10 * b1 + c1 < 100 * a2 + 10 * b2 + c2 <==>
      (a1 < a2 || (a1 == a2 && (b1 < b2 || (b1 == b2 && c1 < c2))))
  {}

  lemma DigitCharOrdered(a: nat, b: nat)
    requires a < 10 && b < 10
    ensures DigitChar(a) < DigitChar(b) <==> a < b
    ensures DigitChar(a) == DigitChar(b) <==> a == b
  {}
}

=== FILE: frame_generator.dfy ===
/** Frame naming and the frame store (app/frame_generator.py, with the
    directory creation of app/utils.py). The frames directory is a value:
    whether it exists and the bytes of each file in it, by file name. The
    image backend's answer (a base64 text) and the base64 decoder are
    inputs; the decoder is partial, `None` standing for a decoding error. */
module FrameGenerator {
  import opened Optional
  import opened Sequences
  import opened Strings
  import opened Decimal

  type Bytes = seq<bv8>

  /** The contents of the frames directory. */
  datatype Store = Store(dirExists: bool, files: map<string, Bytes>)

  /** A directory that does not exist holds no files. */
  predicate ValidStore(store: Store) {
    !store.dirExists ==> store.files == map[]
  }

  /** The glob `frame_*.png`: the fixed prefix and suffix, anything (even
      nothing) between them. */
  predicate MatchesFrameGlob(name: string) {
    |name| >= 10 && name[..6] == "frame_" && name[|name| - 4..] == ".png"
  }

  /** The glob matches a name exactly when it is `frame_`, then any text
      (even none), then `.png`. */
  lemma MatchesFrameGlobShape(n: string)
    ensures MatchesFrameGlob(n) <==> exists mid :: n == "frame_" + mid + ".png"
  {
    if MatchesFrameGlob(n) {
      var mid := n[6..|n| - 4];
      assert n == "frame_" + mid + ".png";
    }
    if exists mid :: n == "frame_" + mid + ".png" {
      var mid :| n == "frame_" + mid + ".png";
      assert n[..6] == "frame_" && n[|n| - 4..] == ".png";
    }
  }

  /** The names the glob finds: the stored files named `frame_`, then any
      text, then `.png`. */
  function GlobFrames(files: map<string, Bytes>): (names: set<string>)
    ensures forall n :: n in names <==> n in files && exists mid :: n == "frame_" + mid + ".png"
  {
    assert forall n :: MatchesFrameGlob(n) <==> exists mid :: n == "frame_" + mid + ".png" by {
      forall n ensures MatchesFrameGlob(n) <==> exists mid :: n == "frame_" + mid + ".png" {
        MatchesFrameGlobShape(n);
      }
    }
    set n | n in files && MatchesFrameGlob(n)
  }

  /** Any text between prefix and suffix counts, even one that is not a
      number; another extension or another prefix does not. */
  lemma GlobFramesExample(b: Bytes)
    ensures GlobFrames(map["frame_abc.png" := b, "frame_001.jpg" := b, "notes.txt" := b]) == {"frame_abc.png"}
  {
    var files := map["frame_abc.png" := b, "frame_001.jpg" := b, "notes.txt" := b];
    assert MatchesFrameGlob("frame_abc.png");
    assert !MatchesFrameGlob("frame_001.jpg") by {
      assert "frame_001.jpg"[9..] == ".jpg";
    }
    assert !MatchesFrameGlob("notes.txt");
  }

  /** `f"frame_{number:03d}.png"`: a name the glob finds, from which the
      number reads back. */
  function FrameName(number: nat): (name: string)
    ensures MatchesFrameGlob(name)
    ensures ParseFrameName(name) == Some(number)
  {
    var field := Pad3(number);
    var name := "frame_" + field + ".png";
    assert name[..6] == "frame_" && name[|name| - 4..] == ".png";
    assert name[6..|name| - 4] == field;
    name
  }

  /** Every frame name is found by the glob, and its middle is the padded
      number; below 1000 all names have the same length. */
  lemma FrameNameMatchesGlob(number: nat)
    ensures MatchesFrameGlob(FrameName(number))
    ensures FrameName(number)[6..|FrameName(number)| - 4] == Pad3(number)
    ensures number < 1000 ==> |FrameName(number)| == 13
  {}

  /** Reads the number back from a name in the canonical form `FrameName`
      produces: at least three digits, and no leading zero beyond three. */
  function ParseFrameName(name: string): Option<nat> {
    if MatchesFrameGlob(name) then
      var field := name[6..|name| - 4];
      if AllDigits(field) && (|field| == 3 || (|field| > 3 && field[0] != '0'))
      then Some(Value(field))
      else None
    else None
  }

  /** Frame names and frame numbers are in one-to-one correspondence:
      `ParseFrameName` inverts `FrameName`, and accepts nothing else. */
  lemma FrameNameRoundTrip(name: string, number: nat)
    ensures ParseFrameName(name) == Some(number) <==> name == FrameName(number)
  {
    if ParseFrameName(name) == Some(number) {
      ParsedIsFrameName(name, number);
    }
  }

  lemma ParsedIsFrameName(name: string, number: nat)
    requires ParseFrameName(name) == Some(number)
    ensures name == FrameName(number)
  {
    var field := name[6..|name| - 4];
    assert Pad3(number) == field by {
      if |field| == 3 {
        Pad3OfValue(field);
      } else {
        DigitsOfValue(field);
        DigitsWidth(number);
      }
    }
    assert name == name[..6] + field + name[|name| - 4..] by {
      SliceSplit(name, 6, |name| - 4);
      PrefixSuffix(name, 6);
      PrefixSuffix(name, |name| - 4);
    }
  }

  /** Different numbers give different names. */
  lemma FrameNameInjective(a: nat, b: nat)
    requires FrameName(a) == FrameName(b)
    ensures a == b
  {
    FrameNameRoundTrip(FrameName(a), a);
    FrameNameRoundTrip(FrameName(b), b);
  }

  /** Up to 999, sorting frame names as strings sorts them by number. */
  lemma FrameNameOrdered(a: nat, b: nat)
    requires a < 1000 && b < 1000
    ensures LexLess(FrameName(a), FrameName(b)) <==> a < b
  {
    if a == b {
      LexLessIrreflexive(FrameName(a));
    } else {
      Pad3Ordered(a, b);
      assert Pad3(a) != Pad3(b);
      LexLessDecided(Pad3(a), Pad3(b), ".png", ".png");
      LexLessCommonPrefix("frame_", Pad3(a) + ".png", Pad3(b) + ".png");
      AppendAssoc("frame_", Pad3(a), ".png");
      AppendAssoc("frame_", Pad3(b), ".png");
    }
  }

  /** From 1000 on the field widens instead of being cut, and the string
      order no longer follows the numbers. */
  lemma FrameNameOrderEndsAt1000()
    ensures FrameName(1000) == "frame_1000.png"
    ensures LexLess(FrameName(1000), FrameName(999))
  {
    FrameName1000();
    FrameName999();
    LexLessCommonPrefix("frame_", "1000" + ".png", "999" + ".png");
  }

  lemma FrameName1000()
    ensures FrameName(1000) == "frame_1000.png"
    ensures FrameName(1000) == "frame_" + ("1000" + ".png")
  {
    Digits1000();
    AppendAssoc("frame_", "1000", ".png");
  }

  lemma FrameName999()
    ensures FrameName(999) == "frame_" + ("999" + ".png")
  {
    Pad3Positional(999);
    AppendAssoc("frame_", "999", ".png");
  }

  lemma Digits1000()
    ensures Pad3(1000) == "1000"
  {
    var z := DigitChar(0);
    assert z == '0' && DigitChar(1) == '1';
    assert Digits(10) == ['1', '0'];
    assert Digits(100) == ['1', '0'] + [z];
    assert Digits(1000) == ['1', '0', '0'] + [z];
  }

  /** `ensure_frames_dir`: creates the directory if needed. */
  function EnsureFramesDir(store: Store): (r: Store)
    ensures r.dirExists && r.files == store.files
  {
    store.(dirExists := true)
  }

  /** The frame number `_next_frame_path` chooses: a positive index as
      given, otherwise one more than the number of names the glob finds. */
  function FrameNumber(files: map<string, Bytes>, index: Option<int>): (number: nat)
    ensures number >= 1
  {
    if index.Some? && index.value > 0 then index.value else |GlobFrames(files)| + 1
  }

  /** `_next_frame_path`: the directory afterwards, and the file name. */
  function NextFramePath(store: Store, index: Option<int>): (r: (Store, string))
    ensures r.0.dirExists && r.0.files == store.files
  {
    var dir := EnsureFramesDir(store);
    (dir, FrameName(FrameNumber(dir.files, index)))
  }

  /** The chosen name is found by the glob and carries the index when it is
      positive, and otherwise one more than the number of frames found. */
  lemma NextFramePathNumber(store: Store, index: Option<int>)
    ensures var name := NextFramePath(store, index).1;
      && MatchesFrameGlob(name)
      && (index.Some? && index.value > 0 ==> ParseFrameName(name) == Some(index.value))
      && (!(index.Some? && index.value > 0) ==> ParseFrameName(name) == Some(|GlobFrames(store.files)| + 1))
  {
    var number := FrameNumber(store.files, index);
    FrameNameMatchesGlob(number);
  }

  datatype Error = DecodeError

  /** The frames directory after a render, and the bytes returned or the
      error raised. */
  datatype Render = Render(store: Store, outcome: Result<Bytes, Error>)

  /** `generate_image` after the image call: decode the payload, then
      choose the path (creating the directory), write the file and return
      the bytes. */
  function GenerateImage(store: Store, payload: string, index: Option<int>,
                         decode: string -> Option<Bytes>): (r: Render)
    ensures decode(payload).None? ==> r.store == store && r.outcome == Failure(DecodeError)
    ensures decode(payload).Some? ==> r.outcome == Success(decode(payload).value)
  {
    match decode(payload)
    case None => Render(store, Failure(DecodeError))
    case Some(bytes) =>
      var (dir, name) := NextFramePath(store, index);
      Render(dir.(files := dir.files[name := bytes]), Success(bytes))
  }

  /** A successful render stores the returned bytes under the chosen name,
      overwriting any file there, and changes no other file. */
  lemma GenerateImageWrites(store: Store, payload: string, index: Option<int>,
                            decode: string -> Option<Bytes>)
    requires decode(payload).Some?
    ensures var r := GenerateImage(store, payload, index, decode);
      var name := FrameName(FrameNumber(store.files, index));
      && r.store.dirExists
      && name in r.store.files && r.store.files[name] == r.outcome.value
      && r.store.files.Keys == store.files.Keys + {name}
      && (forall n | n in store.files && n != name :: r.store.files[n] == store.files[n])
  {}

  /** With a positive index the render is one map update. */
  lemma GenerateImageAt(store: Store, payload: string, k: nat, decode: string -> Option<Bytes>)
    requires k >= 1 && decode(payload).Some?
    ensures GenerateImage(store, payload, Some(k), decode)
      == Render(Store(true, store.files[FrameName(k) := decode(payload).value]), Success(decode(payload).value))
  {}

  /** A render keeps the store valid. */
  lemma GenerateImageValid(store: Store, payload: string, index: Option<int>,
                           decode: string -> Option<Bytes>)
    requires ValidStore(store)
    ensures ValidStore(GenerateImage(store, payload, index, decode).store)
  {}

  /** The names `frame_001.png` to `frame_k.png`. */
  function FrameNames(k: nat): (names: set<string>)
    ensures |names| == k
    ensures forall j | 1 <= j <= k :: FrameName(j) in names
    ensures forall n | n in names :: ParseFrameName(n).Some? && 1 <= ParseFrameName(n).value <= k
  {
    if k == 0 then {}
    else
      var names := FrameNames(k - 1);
      var name := FrameName(k);
      assert ParseFrameName(name) == Some(k);
      assert name !in names;
      names + {name}
  }

  /** Without gaps the fallback name is new: when the glob finds exactly
      `frame_001.png` to `frame_k.png`, the next name is none of them. */
  lemma FallbackIsFresh(files: map<string, Bytes>, k: nat)
    requires GlobFrames(files) == FrameNames(k)
    ensures FrameNumber(files, None) == k + 1
    ensures FrameName(FrameNumber(files, None)) !in files
  {
    var name := FrameName(k + 1);
    FrameNameRoundTrip(name, k + 1);
    FrameNameMatchesGlob(k + 1);
    assert name !in FrameNames(k);
  }

  /** With a gap the fallback can hit an existing frame: a directory
      holding only `frame_002.png` gets its next frame written over it. */
  lemma FallbackOverwritesAfterGap(earlier: Bytes)
    ensures var files := map["frame_002.png" := earlier];
      && FrameNumber(files, None) == 2
      && FrameName(2) == "frame_002.png"
      && FrameName(2) in files
  {
    var files := map["frame_002.png" := earlier];
    assert MatchesFrameGlob("frame_002.png");
    assert GlobFrames(files) == {"frame_002.png"};
    assert Pad3(2) == "002" by {
      Pad3Positional(2);
    }
  }

  /** The ASCII text `fake image bytes` as bytes. */
  const FakeImageBytes: Bytes :=
    [0x66, 0x61, 0x6B, 0x65, 0x20, 0x69, 0x6D, 0x61, 0x67, 0x65, 0x20, 0x62, 0x79, 0x74, 0x65, 0x73]

  /** The test suite's render: a payload that decodes to `fake image
      bytes`, rendered with index 1, is written to `frame_001.png` and
      returned. */
  lemma RenderFakeImage(store: Store, payload: string, decode: string -> Option<Bytes>)
    requires decode(payload) == Some(FakeImageBytes)
    ensures var r := GenerateImage(store, payload, Some(1), decode);
      && r.outcome == Success(FakeImageBytes)
      && "frame_001.png" in r.store.files
      && r.store.files["frame_001.png"] == FakeImageBytes
  {
    GenerateImageAt(store, payload, 1, decode);
    assert Pad3(1) == "001" by {
      Pad3Positional(1);
    }
    assert FrameName(1) == "frame_001.png";
  }
}

=== FILE: optional.dfy ===
/** Optional values and fallible results, used where the Python code takes
    `None` or raises. */
module Optional {

  datatype Option<+T> = None | Some(value: T)

  datatype Result<+T, +E> = Success(value: T) | Failure(error: E)
}

=== FILE: pipeline.dfy ===
/** The driver loop of app/main.py (mirrored in app/api.py): break the
    story into scenes, then render scene `i` (counting from 1) as frame
    `i`. The text backend's answer is given as the contents of its choices
    and the image backend as a function from prompt to payload. */
module Pipeline {
  import opened Optional
  import opened Strings
  import opened SceneBreakdown
  import opened FrameGenerator

  /** The frames directory after a run, and the error that stopped it. */
  datatype Run = Run(store: Store, failure: Option<Error>)

  /** `for idx, scene in enumerate(scenes, start=first): generate_image(scene, index=idx)`.
      The run stops at the first payload that fails to decode, with the
      frames before it already written. */
  function RenderScenes(store: Store, scenes: seq<string>, first: nat,
                        image: string -> string, decode: string -> Option<Bytes>): (r: Run)
    requires first >= 1
    ensures r.failure.None? <==> forall i | 0 <= i < |scenes| :: decode(image(scenes[i])).Some?
    decreases |scenes|
  {
    if scenes == [] then Run(store, None)
    else
      var step := GenerateImage(store, image(scenes[0]), Some(first), decode);
      if step.outcome.Failure? then Run(step.store, Some(step.outcome.error))
      else
        var rest := RenderScenes(step.store, scenes[1..], first + 1, image, decode);
        assert forall i | 1 <= i < |scenes| :: scenes[1..][i - 1] == scenes[i];
        rest
  }

  /** The files a complete run writes, keyed by `key` (the frame name of
      a number): entry `first + i` holds the decoded image of scene `i`. */
  function Written<K>(scenes: seq<string>, first: nat, key: nat -> K,
                      image: string -> string, decode: string -> Option<Bytes>): map<K, Bytes>
    requires forall i | 0 <= i < |scenes| :: decode(image(scenes[i])).Some?
    decreases |scenes|
  {
    if scenes == [] then map[]
    else
      assert forall i | 1 <= i < |scenes| :: scenes[1..][i - 1] == scenes[i];
      map[key(first) := decode(image(scenes[0])).value] + Written(scenes[1..], first + 1, key, image, decode)
  }

  ghost predicate Injective<K>(key: nat -> K) {
    forall a, b :: key(a) == key(b) ==> a == b
  }

  /** Frame names are an injective key. */
  lemma FrameNamesInjective()
    ensures Injective(FrameName)
  {
    forall a: nat, b: nat | FrameName(a) == FrameName(b) ensures a == b {
      FrameNameInjective(a, b);
    }
  }

  lemma MapUpdateUnion<K, V>(m: map<K, V>, k: K, v: V, w: map<K, V>)
    ensures m[k := v] + w == m + (map[k := v] + w)
  {}

  /** A run without decoding errors adds its frames to the directory, over
      whatever files had those names, and leaves every other file alone. */
  lemma {:induction false} RenderScenesWrites(store: Store, scenes: seq<string>, first: nat,
                                              image: string -> string, decode: string -> Option<Bytes>)
    requires first >= 1
    requires forall i | 0 <= i < |scenes| :: decode(image(scenes[i])).Some?
    ensures RenderScenes(store, scenes, first, image, decode).store.files
      == store.files + Written(scenes, first, FrameName, image, decode)
    decreases |scenes|
  {
    if scenes != [] {
      var v := decode(image(scenes[0])).value;
      var tail := scenes[1..];
      var files' := store.files[FrameName(first) := v];
      var step := Store(true, files');
      assert forall i | 0 <= i < |tail| :: decode(image(tail[i])).Some? by {
        assert forall i | 0 <= i < |tail| :: tail[i] == scenes[i + 1];
      }
      assert RenderScenes(store, scenes, first, image, decode)
          == RenderScenes(step, tail, first + 1, image, decode) by {
        GenerateImageAt(store, image(scenes[0]), first, decode);
      }
      RenderScenesWrites(step, tail, first + 1, image, decode);
      WrittenStep(store.files, scenes, first, FrameName, image, decode);
    } else {
      assert store.files + map[] == store.files;
    }
  }

  /** One more frame written first is the same as one more entry in the
      frames of the run. */
  lemma WrittenStep<K>(files: map<K, Bytes>, scenes: seq<string>, first: nat, key: nat -> K,
                       image: string -> string, decode: string -> Option<Bytes>)
    requires scenes != []
    requires forall i | 0 <= i < |scenes| :: decode(image(scenes[i])).Some?
    ensures forall i | 0 <= i < |scenes[1..]| :: decode(image(scenes[1..][i])).Some?
    ensures files[key(first) := decode(image(scenes[0])).value] + Written(scenes[1..], first + 1, key, image, decode)
      == files + Written(scenes, first, key, image, decode)
  {
    var v := decode(image(scenes[0])).value;
    assert forall i | 0 <= i < |scenes[1..]| :: scenes[1..][i] == scenes[i + 1];
    var w := Written(scenes[1..], first + 1, key, image, decode);
    MapUpdateUnion(files, key(first), v, w);
  }

  /** Keys of numbers below `first` are not written by the run. */
  lemma {:induction false} WrittenFrom<K>(scenes: seq<string>, first: nat, key: nat -> K, k: nat,
                                          image: string -> string, decode: string -> Option<Bytes>)
    requires Injective(key)
    requires forall i | 0 <= i < |scenes| :: decode(image(scenes[i])).Some?
    requires k < first
    ensures key(k) !in Written(scenes, first, key, image, decode)
    decreases |scenes|
  {
    if scenes != [] {
      assert forall i | 0 <= i < |scenes[1..]| :: scenes[1..][i] == scenes[i + 1];
      WrittenFrom(scenes[1..], first + 1, key, k, image, decode);
    }
  }

  /** Entry `first + i` of a complete run holds scene `i`'s image. */
  lemma {:induction false} WrittenAt<K>(scenes: seq<string>, first: nat, key: nat -> K, i: nat,
                                        image: string -> string, decode: string -> Option<Bytes>)
    requires Injective(key)
    requires forall i | 0 <= i < |scenes| :: decode(image(scenes[i])).Some?
    requires i < |scenes|
    ensures key(first + i) in Written(scenes, first, key, image, decode)
    ensures Written(scenes, first, key, image, decode)[key(first + i)] == decode(image(scenes[i])).value
    decreases i
  {
    var tail := scenes[1..];
    assert forall k | 0 <= k < |tail| :: tail[k] == scenes[k + 1];
    var w' := Written(tail, first + 1, key, image, decode);
    assert Written(scenes, first, key, image, decode) == map[key(first) := decode(image(scenes[0])).value] + w';
    if i == 0 {
      WrittenFrom(tail, first + 1, key, first, image, decode);
    } else {
      WrittenAt(tail, first + 1, key, i - 1, image, decode);
      assert first + 1 + (i - 1) == first + i;
      assert tail[i - 1] == scenes[i];
    }
  }

  /** A complete run writes no key other than those of `first`,
      `first + 1`, … */
  lemma {:induction false} WrittenOnly<K>(scenes: seq<string>, first: nat, key: nat -> K, n: K,
                                          image: string -> string, decode: string -> Option<Bytes>)
    requires forall i | 0 <= i < |scenes| :: decode(image(scenes[i])).Some?
    requires n in Written(scenes, first, key, image, decode)
    ensures exists k :: first <= k < first + |scenes| && n == key(k)
    decreases |scenes|
  {
    var tail := scenes[1..];
    assert forall k | 0 <= k < |tail| :: tail[k] == scenes[k + 1];
    var w' := Written(tail, first + 1, key, image, decode);
    if n != key(first) {
      assert n in w';
      WrittenOnly(tail, first + 1, key, n, image, decode);
    }
  }

  /** `generate_frames_from_story`: the scenes, rendered as frames 1, 2, …,
      together with their number. */
  function GenerateFramesFromStory(store: Store, choices: seq<string>,
                                   image: string -> string, decode: string -> Option<Bytes>): (r: (Run, nat))
    ensures MinScenes <= r.1 <= MaxScenes
    ensures r.1 == |BreakStoryIntoScenes(choices)|
    ensures r.0.failure.None? <==>
      forall i | 0 <= i < r.1 :: decode(image(BreakStoryIntoScenes(choices)[i])).Some?
  {
    var scenes := BreakStoryIntoScenes(choices);
    (RenderScenes(store, scenes, 1, image, decode), |scenes|)
  }

  /** After a run without decoding errors, frame `i + 1` holds the image
      of scene `i`. */
  lemma StoryFrames(store: Store, choices: seq<string>,
                    image: string -> string, decode: string -> Option<Bytes>, i: nat)
    requires GenerateFramesFromStory(store, choices, image, decode).0.failure.None?
    requires i < |BreakStoryIntoScenes(choices)|
    ensures var files := GenerateFramesFromStory(store, choices, image, decode).0.store.files;
      FrameName(i + 1) in files && files[FrameName(i + 1)] == decode(image(BreakStoryIntoScenes(choices)[i])).value
  {
    var scenes := BreakStoryIntoScenes(choices);
    RenderScenesWrites(store, scenes, 1, image, decode);
    FrameNamesInjective();
    WrittenAt(scenes, 1, FrameName, i, image, decode);
    assert 1 + i == i + 1;
  }

  /** After a run without decoding errors, every file of the directory is
      either one that was there before or one of frames 1 to the number of
      scenes. */
  lemma StoryFramesOnly(store: Store, choices: seq<string>,
                        image: string -> string, decode: string -> Option<Bytes>, name: string)
    requires GenerateFramesFromStory(store, choices, image, decode).0.failure.None?
    requires name in GenerateFramesFromStory(store, choices, image, decode).0.store.files
    ensures name in store.files
      || exists k :: 1 <= k <= |BreakStoryIntoScenes(choices)| && name == FrameName(k)
  {
    var scenes := BreakStoryIntoScenes(choices);
    RenderScenesWrites(store, scenes, 1, image, decode);
    if name !in store.files {
      WrittenOnly(scenes, 1, FrameName, name, image, decode);
    }
  }

  /** The frames of a run have pairwise different names, and sorting them
      as strings puts them in scene order. */
  lemma StoryFramesOrdered(choices: seq<string>, i: nat, j: nat)
    requires i < j < |BreakStoryIntoScenes(choices)|
    ensures FrameName(i + 1) != FrameName(j + 1)
    ensures LexLess(FrameName(i + 1), FrameName(j + 1))
  {
    assert j + 1 <= MaxScenes;
    var a, b := FrameName(i + 1), FrameName(j + 1);
    FrameNameOrdered(i + 1, j + 1);
    assert LexLess(a, b);
    FrameNamesInjective();
  }
}

=== FILE: scene_breakdown.dfy ===
/** Post-processing of the text model's answer into a scene list
    (app/scene_breakdown.py): every line loses its list marker and its
    surrounding whitespace, empty lines are dropped, and the list is padded
    with placeholders up to 20 entries or truncated to 60. The chat
    completion itself is an input: the contents of its choices. */
module SceneBreakdown {
  import opened Sequences
  import opened Strings
  import opened Decimal

  const MinScenes: nat := 20
  const MaxScenes: nat := 60

  /** The character class `[-*\d+:.\s]` of the list-marker pattern. */
  predicate IsMarkerChar(c: char) {
    c == '-' || c == '*' || c == '+' || c == ':' || c == '.' || IsDigit(c) || IsSpace(c)
  }

  /** A normalised scene: non-empty, not starting with a marker character
      (hence not with whitespace) and not ending with whitespace. */
  predicate IsSceneDescription(s: string) {
    s != [] && !IsMarkerChar(s[0]) && !IsSpace(s[|s| - 1])
  }

  /** `re.sub(r"^[-*\d+:.\s]+", "", line)`: removes the maximal leading run
      of marker characters. */
  function StripListMarker(line: string): (r: string)
    ensures |r| <= |line| && r == line[|line| - |r|..]
    ensures r == [] || !IsMarkerChar(r[0])
  {
    if |line| > 0 && IsMarkerChar(line[0]) then StripListMarker(line[1..]) else line
  }

  /** What the substitution removes is marker characters. */
  lemma {:induction false} StripListMarkerDropsMarkers(line: string)
    ensures forall k | 0 <= k < |line| - |StripListMarker(line)| :: IsMarkerChar(line[k])
    decreases |line|
  {
    if |line| > 0 && IsMarkerChar(line[0]) {
      StripListMarkerDropsMarkers(line[1..]);
      assert forall k | 1 <= k < |line| :: line[1..][k - 1] == line[k];
    }
  }

  /** `_clean_scene_line`: strip the list marker, then `strip()`. */
  function CleanSceneLine(line: string): (r: string)
    ensures r == [] || IsSceneDescription(r)
    ensures |r| <= |line|
  {
    var m := StripListMarker(line);
    TrimStartNoop(m);
    TrimmedIsScene(m);
    Strip(m)
  }

  lemma TrimmedIsScene(m: string)
    requires m == [] || !IsMarkerChar(m[0])
    ensures TrimEnd(m) == [] || IsSceneDescription(TrimEnd(m))
  {
    var r := TrimEnd(m);
    if r != [] {
      assert r[0] == m[0];
    }
  }

  /** `r` is what remains of `line` after cutting a prefix of marker
      characters and a suffix of whitespace. */
  ghost predicate CutFrom(line: string, r: string) {
    exists i :: 0 <= i <= |line| - |r| && CutAt(line, r, i)
  }

  ghost predicate CutAt(line: string, r: string, i: int)
    requires 0 <= i <= |line| - |r|
  {
    && line[i..i + |r|] == r
    && (forall k | 0 <= k < i :: IsMarkerChar(line[k]))
    && (forall k | i + |r| <= k < |line| :: IsSpace(line[k]))
  }

  /** Cleaning, characterised without the regular expression: the cleaned
      line is the unique empty-or-normalised string that `line` reduces to
      by cutting a marker prefix and a whitespace suffix. */
  lemma CleanCharacterization(line: string, r: string)
    ensures r == CleanSceneLine(line) <==> (r == [] || IsSceneDescription(r)) && CutFrom(line, r)
  {
    var c := CleanSceneLine(line);
    CleanIsCut(line);
    if (r == [] || IsSceneDescription(r)) && CutFrom(line, r) {
      var i :| 0 <= i <= |line| - |r| && CutAt(line, r, i);
      CutUnique(line, r, i);
    }
  }

  lemma CleanIsCut(line: string)
    ensures CutFrom(line, CleanSceneLine(line))
  {
    var m := StripListMarker(line);
    var j := |line| - |m|;
    var r := TrimEnd(m);
    assert r == CleanSceneLine(line) by {
      TrimStartNoop(m);
    }
    assert line[j..j + |r|] == r by {
      PrefixOfSuffix(line, j, r);
    }
    assert forall k | 0 <= k < j :: IsMarkerChar(line[k]) by {
      StripListMarkerDropsMarkers(line);
    }
    assert forall k | j + |r| <= k < |line| :: IsSpace(line[k]) by {
      TrimEndDropsSpace(m);
      forall k | j + |r| <= k < |line|
        ensures IsSpace(line[k])
      {
        assert line[k] == m[k - j];
      }
    }
    assert CutAt(line, r, j);
  }

  /** `lstrip` does nothing to text that does not start with whitespace. */
  lemma TrimStartNoop(s: string)
    requires s == [] || !IsSpace(s[0])
    ensures TrimStart(s) == s
  {}

  /** The marker run ends at the first character outside the class. */
  lemma {:induction false} StripListMarkerAt(line: string, i: nat)
    requires i <= |line|
    requires forall k | 0 <= k < i :: IsMarkerChar(line[k])
    requires i == |line| || !IsMarkerChar(line[i])
    ensures StripListMarker(line) == line[i..]
    decreases i
  {
    if i > 0 {
      StripListMarkerAt(line[1..], i - 1);
      assert line[1..][i - 1..] == line[i..];
    }
  }

  /** `rstrip` removes exactly a whitespace tail after a non-whitespace
      character. */
  lemma {:induction false} TrimEndOfPadded(r: string, w: string)
    requires r != [] && !IsSpace(r[|r| - 1])
    requires forall k | 0 <= k < |w| :: IsSpace(w[k])
    ensures TrimEnd(r + w) == r
    decreases |w|
  {
    if w == [] {
      assert r + w == r;
    } else {
      var w' := w[..|w| - 1];
      assert (r + w)[..|r + w| - 1] == r + w';
      TrimEndOfPadded(r, w');
    }
  }

  /** Any empty-or-normalised cut of `line` is the cleaned line. */
  lemma CutUnique(line: string, r: string, i: int)
    requires r == [] || IsSceneDescription(r)
    requires 0 <= i <= |line| - |r| && CutAt(line, r, i)
    ensures r == CleanSceneLine(line)
  {
    if r == [] {
      assert AllMarkers(line) by {
        forall k | 0 <= k < |line| ensures IsMarkerChar(line[k]) {
          if k >= i { assert IsSpace(line[k]); }
        }
      }
      StripListMarkerAt(line, |line|);
    } else {
      var m, w := line[i..], line[i + |r|..];
      assert StripListMarker(line) == m by {
        assert line[i] == r[0];
        StripListMarkerAt(line, i);
      }
      assert m == r + w by {
        SliceSplit(line, i, i + |r|);
      }
      assert forall k | 0 <= k < |w| :: IsSpace(w[k]) by {
        forall k | 0 <= k < |w| ensures IsSpace(w[k]) {
          assert w[k] == line[i + |r| + k];
        }
      }
      TrimStartNoop(m);
      TrimEndOfPadded(r, w);
    }
  }

  /** A string that is already a normalised scene is left as it is. */
  lemma CleanKeepsScene(s: string)
    requires IsSceneDescription(s)
    ensures CleanSceneLine(s) == s
  {
    assert StripListMarker(s) == s;
    assert TrimStart(s) == s;
    assert TrimEnd(s) == s;
  }

  /** Cleaning is idempotent. */
  lemma CleanIdempotent(line: string)
    ensures CleanSceneLine(CleanSceneLine(line)) == CleanSceneLine(line)
  {
    var c := CleanSceneLine(line);
    if c != [] {
      CleanKeepsScene(c);
    } else {
      CleanEmpty();
    }
  }

  lemma CleanEmpty()
    ensures CleanSceneLine([]) == []
  {
    assert StripListMarker([]) == [];
    assert TrimEnd([]) == [];
  }

  /** A line is unchanged by cleaning exactly when it is empty or already a
      normalised scene. */
  lemma CleanFixedPoint(s: string)
    ensures CleanSceneLine(s) == s <==> s == [] || IsSceneDescription(s)
  {
    if IsSceneDescription(s) {
      CleanKeepsScene(s);
    }
  }

  /** A marker prefix in front of a normalised scene (or of nothing) is
      removed entirely, digits that belong to the text included. */
  lemma CleanMarkedLine(p: string, s: string)
    requires AllMarkers(p)
    requires s == [] || IsSceneDescription(s)
    ensures CleanSceneLine(p + s) == s
  {
    var line := p + s;
    StripListMarkerAt(line, |p|);
    assert line[|p|..] == s;
    TrimStartNoop(s);
  }

  /** A scene that genuinely starts with a number loses it. */
  lemma CleanDropsLeadingNumber()
    ensures CleanSceneLine("3 knights ride out") == "knights ride out"
  {
    var p, t := "3 ", "knights ride out";
    assert AllMarkers(p) by {
      assert forall k | 0 <= k < |p| :: p[k] == '3' || p[k] == ' ';
    }
    assert IsSceneDescription(t);
    assert p + t == "3 knights ride out";
    CleanMarkedLine(p, t);
  }

  // ---------------------------------------------------------------------
  // parse_scenes
  // ---------------------------------------------------------------------

  /** What one line contributes to the parse result: its cleaned text, or
      nothing when that is empty. */
  function KeptLine(line: string): (r: seq<string>)
    ensures |r| <= 1
  {
    var c := CleanSceneLine(line);
    if c == [] then [] else [c]
  }

  /** The cleaned lines that are not empty, in their original order. */
  function KeepScenes(lines: seq<string>): (r: seq<string>)
    ensures |r| <= |lines|
    decreases |lines|
  {
    if lines == [] then []
    else KeepScenes(lines[..|lines| - 1]) + KeptLine(lines[|lines| - 1])
  }

  /** Every entry kept is a normalised scene. */
  lemma {:induction false} KeepScenesAreScenes(lines: seq<string>)
    ensures forall j | 0 <= j < |KeepScenes(lines)| :: IsSceneDescription(KeepScenes(lines)[j])
    decreases |lines|
  {
    if lines != [] {
      var a := KeepScenes(lines[..|lines| - 1]);
      var b := KeptLine(lines[|lines| - 1]);
      KeepScenesAreScenes(lines[..|lines| - 1]);
      forall j | 0 <= j < |a + b|
        ensures IsSceneDescription((a + b)[j])
      {
        if j < |a| {
          assert IsSceneDescription(a[j]);
          assert (a + b)[j] == a[j];
        } else {
          var c := CleanSceneLine(lines[|lines| - 1]);
          assert b == [c] && c != [];
          assert IsSceneDescription(c);
          assert (a + b)[j] == c;
        }
      }
    }
  }

  /** `parse_scenes(raw)`. */
  function ParseScenes(raw: string): (r: seq<string>)
    ensures |r| <= |SplitLines(raw)|
  {
    KeepScenes(SplitLines(raw))
  }

  /** Every parsed entry is a normalised scene. */
  lemma ParseScenesAreScenes(raw: string)
    ensures forall j | 0 <= j < |ParseScenes(raw)| :: IsSceneDescription(ParseScenes(raw)[j])
  {
    KeepScenesAreScenes(SplitLines(raw));
  }

  /** The loop of `parse_scenes`: append each non-empty cleaned line. */
  method ParseScenesLoop(raw: string) returns (scenes: seq<string>)
    ensures scenes == ParseScenes(raw)
  {
    var lines := SplitLines(raw);
    scenes := [];
    for i := 0 to |lines|
      invariant scenes == KeepScenes(lines[..i])
    {
      KeepScenesStep(lines, i);
      var cleaned := CleanSceneLine(lines[i]);
      if cleaned != [] {
        scenes := scenes + [cleaned];
      } else {
        AppendEmpty(scenes);
      }
    }
    WholePrefix(lines);
  }

  lemma KeepScenesStep(lines: seq<string>, i: nat)
    requires i < |lines|
    ensures KeepScenes(lines[..i + 1]) == KeepScenes(lines[..i]) + KeptLine(lines[i])
  {
    var prefix := lines[..i + 1];
    assert prefix[..i] == lines[..i];
    assert prefix[i] == lines[i];
    KeepScenesUnfold(prefix);
  }

  lemma KeepScenesUnfold(lines: seq<string>)
    requires lines != []
    ensures KeepScenes(lines) == KeepScenes(lines[..|lines| - 1]) + KeptLine(lines[|lines| - 1])
  {}

  /** Filtering works line by line: the result for a concatenation is the
      concatenation of the results, so order is kept and nothing is
      deduplicated. */
  lemma {:induction false} KeepScenesAppend(a: seq<string>, b: seq<string>)
    ensures KeepScenes(a + b) == KeepScenes(a) + KeepScenes(b)
    decreases |b|
  {
    if b == [] {
      assert a + b == a;
      assert KeepScenes(a) + [] == KeepScenes(a);
    } else {
      var b', last := b[..|b| - 1], b[|b| - 1];
      var ab := a + b;
      assert ab[..|ab| - 1] == a + b';
      assert ab[|ab| - 1] == last;
      KeepScenesAppend(a, b');
      var tail := KeptLine(last);
      KeepScenesUnfold(ab);
      KeepScenesUnfold(b);
      AppendAssoc(KeepScenes(a), KeepScenes(b'), tail);
    }
  }

  /** A single line gives its cleaned text, or nothing. */
  lemma KeepScenesSingle(line: string)
    ensures KeepScenes([line]) == if CleanSceneLine(line) == [] then [] else [CleanSceneLine(line)]
  {
    assert [line][..0] == [];
  }

  /** Lines that are all normalised scenes come back unchanged, repeated
      ones included. */
  lemma {:induction false} KeepScenesOfScenes(lines: seq<string>)
    requires forall j | 0 <= j < |lines| :: IsSceneDescription(lines[j])
    ensures KeepScenes(lines) == lines
    decreases |lines|
  {
    if lines != [] {
      var init, last := lines[..|lines| - 1], lines[|lines| - 1];
      assert forall j | 0 <= j < |init| :: init[j] == lines[j];
      KeepScenesOfScenes(init);
      KeptScene(last);
      KeepScenesUnfold(lines);
      InitLast(lines);
    }
  }

  lemma KeptScene(s: string)
    requires IsSceneDescription(s)
    ensures KeptLine(s) == [s]
  {
    CleanKeepsScene(s);
  }

  /** Some line of `lines` cleans to `x`. */
  ghost predicate CleansTo(lines: seq<string>, x: string) {
    exists j :: 0 <= j < |lines| && CleanSceneLine(lines[j]) == x
  }

  lemma CleansToWitness(lines: seq<string>, j: int, x: string)
    requires 0 <= j < |lines| && CleanSceneLine(lines[j]) == x
    ensures CleansTo(lines, x)
  {}

  /** A string is in the parse result exactly when it is non-empty and
      the cleaning of some line. */
  lemma {:induction false} KeepScenesMember(lines: seq<string>, x: string)
    ensures x in KeepScenes(lines) <==> x != [] && CleansTo(lines, x)
    decreases |lines|
  {
    if lines != [] {
      var n := |lines|;
      var init, last := lines[..n - 1], lines[n - 1];
      KeepScenesMember(init, x);
      KeepScenesUnfold(lines);
      if CleansTo(lines, x) {
        var j :| 0 <= j < n && CleanSceneLine(lines[j]) == x;
        if j < n - 1 {
          PrefixIndex(lines, n - 1, j);
          CleansToWitness(init, j, x);
        }
      }
      if CleansTo(init, x) {
        var j :| 0 <= j < n - 1 && CleanSceneLine(init[j]) == x;
        PrefixIndex(lines, n - 1, j);
        CleansToWitness(lines, j, x);
      }
      if x in KeptLine(last) {
        CleansToWitness(lines, n - 1, x);
      }
    }
  }

  /** An answer with no text gives no scenes. */
  lemma ParseScenesEmpty()
    ensures ParseScenes("") == []
  {}

  // ---------------------------------------------------------------------
  // break_story_into_scenes
  // ---------------------------------------------------------------------

  /** `f"Additional scene {k}"`. */
  function Placeholder(k: nat): (s: string)
    ensures IsSceneDescription(s)
  {
    "Additional scene " + Digits(k)
  }

  /** Placeholders with different numbers differ. */
  lemma PlaceholderInjective(a: nat, b: nat)
    requires Placeholder(a) == Placeholder(b)
    ensures a == b
  {
    var p := "Additional scene ";
    assert Placeholder(a)[|p|..] == Digits(a);
    assert Placeholder(b)[|p|..] == Digits(b);
  }

  /** `[f"Additional scene {i+1}" for i in range(missing)]`. */
  function Padding(missing: nat): (r: seq<string>)
    ensures |r| == missing
  {
    if missing == 0 then [] else Padding(missing - 1) + [Placeholder(missing)]
  }

  /** The padding is numbered from 1. */
  lemma {:induction false} PaddingEntries(missing: nat)
    ensures forall i | 0 <= i < missing :: Padding(missing)[i] == Placeholder(i + 1)
  {
    if missing > 0 {
      PaddingEntries(missing - 1);
    }
  }

  /** The boundary rule of `break_story_into_scenes`: pad a short list
      with placeholders numbered from 1 up to 20 entries, cut a long one
      after 60. */
  function BoundScenes(scenes: seq<string>): (r: seq<string>)
    ensures MinScenes <= |r| <= MaxScenes
    ensures |scenes| < MinScenes ==> |r| == MinScenes
    ensures MinScenes <= |scenes| <= MaxScenes ==> |r| == |scenes|
    ensures |scenes| > MaxScenes ==> |r| == MaxScenes
  {
    if |scenes| < MinScenes then
      scenes + Padding(MinScenes - |scenes|)
    else if |scenes| > MaxScenes then scenes[..MaxScenes]
    else scenes
  }

  /** The entries kept come first, in order; the placeholders follow,
      numbered from 1. */
  lemma BoundScenesEntries(scenes: seq<string>)
    ensures var r := BoundScenes(scenes);
      && (forall j | 0 <= j < |r| && j < |scenes| :: r[j] == scenes[j])
      && (forall j | |scenes| <= j < |r| :: r[j] == Placeholder(j - |scenes| + 1))
  {
    if |scenes| < MinScenes {
      PaddingEntries(MinScenes - |scenes|);
    }
  }

  /** The list is returned untouched exactly when it already has 20 to 60
      entries. */
  lemma BoundScenesIdentity(scenes: seq<string>)
    ensures BoundScenes(scenes) == scenes <==> MinScenes <= |scenes| <= MaxScenes
  {
    var r := BoundScenes(scenes);
    if MinScenes <= |scenes| <= MaxScenes {
      assert r == scenes;
    }
  }

  /** Applying the boundary rule a second time changes nothing. */
  lemma BoundScenesIdempotent(scenes: seq<string>)
    ensures BoundScenes(BoundScenes(scenes)) == BoundScenes(scenes)
  {
    BoundScenesIdentity(BoundScenes(scenes));
  }

  /** Normalised scenes stay normalised: placeholders are scenes too. */
  lemma BoundScenesKeepsScenes(scenes: seq<string>)
    requires forall j | 0 <= j < |scenes| :: IsSceneDescription(scenes[j])
    ensures forall j | 0 <= j < |BoundScenes(scenes)| :: IsSceneDescription(BoundScenes(scenes)[j])
  {
    BoundScenesEntries(scenes);
  }

  /** `break_story_into_scenes` after the chat call: `choices` are the
      contents of the completion's choices, and an answer without choices
      reads as empty text. */
  function BreakStoryIntoScenes(choices: seq<string>): (r: seq<string>)
    ensures MinScenes <= |r| <= MaxScenes
  {
    var content := if |choices| > 0 then choices[0] else "";
    BoundScenes(ParseScenes(content))
  }

  /** Every scene of the story is a normalised scene. */
  lemma BreakStoryScenes(choices: seq<string>)
    ensures forall j | 0 <= j < |BreakStoryIntoScenes(choices)| :: IsSceneDescription(BreakStoryIntoScenes(choices)[j])
  {
    var content := if |choices| > 0 then choices[0] else "";
    ParseScenesAreScenes(content);
    BoundScenesKeepsScenes(ParseScenes(content));
  }

  /** Only the first choice is read. */
  lemma BreakStoryUsesFirstChoice(choices: seq<string>)
    requires |choices| > 0
    ensures BreakStoryIntoScenes(choices) == BreakStoryIntoScenes(choices[..1])
  {}

  /** An answer of 20 to 60 normalised lines joined by newlines is returned
      line for line. */
  lemma BreakStoryOfCleanAnswer(lines: seq<string>)
    requires MinScenes <= |lines| <= MaxScenes
    requires forall j | 0 <= j < |lines| :: IsSceneDescription(lines[j]) && NoBreaks(lines[j])
    ensures BreakStoryIntoScenes([JoinLines(lines)]) == lines
  {
    var content := JoinLines(lines);
    assert ParseScenes(content) == lines by {
      SplitJoinLines(lines);
      KeepScenesOfScenes(lines);
    }
    BoundScenesIdentity(lines);
  }

  /** An answer with 75 usable lines keeps the first 60 of them. */
  lemma BreakStoryTruncates(content: string)
    requires |ParseScenes(content)| == 75
    ensures BreakStoryIntoScenes([content]) == ParseScenes(content)[..60]
  {}

  predicate AllMarkers(p: string) {
    forall k | 0 <= k < |p| :: IsMarkerChar(p[k])
  }

  /** The indented numbers `"    1. "` to `"    3. "` are list markers. */
  lemma NumberPrefixes()
    ensures AllMarkers("    1. ") && AllMarkers("    2. ") && AllMarkers("    3. ")
  {
    var p1, p2, p3 := "    1. ", "    2. ", "    3. ";
    assert forall k | 0 <= k < 7 :: p1[k] == ' ' || p1[k] == '1' || p1[k] == '.';
    assert forall k | 0 <= k < 7 :: p2[k] == ' ' || p2[k] == '2' || p2[k] == '.';
    assert forall k | 0 <= k < 7 :: p3[k] == ' ' || p3[k] == '3' || p3[k] == '.';
  }

  /** The placeholders at the two ends of the padding of a three-scene
      list. */
  lemma PlaceholderText()
    ensures Placeholder(1) == "Additional scene 1"
    ensures Placeholder(17) == "Additional scene 17"
  {
    assert Digits(1) == "1";
    assert Digits(17) == Digits(1) + [DigitChar(7)];
  }

  /** The lines of the numbered answer, before cleaning. */
  lemma SplitNumberedAnswer(l1: string, l2: string, l3: string, tail: string)
    requires l1 != [] && NoBreaks(l1) && l2 != [] && NoBreaks(l2)
    requires l3 != [] && NoBreaks(l3) && tail != [] && NoBreaks(tail)
    ensures SplitLines("\n" + (l1 + ("\n" + (l2 + ("\n" + (l3 + ("\n" + tail)))))))
      == [""] + ([l1] + ([l2] + ([l3] + [tail])))
  {
    var rest3 := l3 + ("\n" + tail);
    var rest2 := l2 + ("\n" + rest3);
    var rest1 := l1 + ("\n" + rest2);
    var raw := "\n" + rest1;
    SplitLinesSingle(tail);
    SplitLinesCons(l3, tail);
    SplitLinesCons(l2, rest3);
    SplitLinesCons(l1, rest2);
    assert BreakIndex(raw) == 0 && BreakWidth(raw, 0) == 1;
    assert raw[1..] == rest1;
  }

  lemma AppendNoBreaks(p: string, s: string)
    requires NoBreaks(p) && NoBreaks(s)
    ensures NoBreaks(p + s)
  {
    forall k | 0 <= k < |p + s| ensures !IsLineBreak((p + s)[k]) {
      if k >= |p| { assert (p + s)[k] == s[k - |p|]; }
    }
  }

  lemma CleanBlank()
    ensures CleanSceneLine("    ") == ""
  {
    var t := "    ";
    assert forall k | 0 <= k < |t| :: t[k] == ' ';
    CleanMarkedLine(t, "");
    assert t + "" == t;
  }

  /** Three singletons appended to the empty list, in the shape the
      test suite's answer produces. */
  lemma Triple<T>(x: T, y: T, z: T)
    ensures [] + ([x] + ([y] + ([z] + []))) == [x, y, z]
  {}

  /** The shape of the test suite's answer: three lines numbered `1.` to
      `3.` and indented by four spaces, a leading newline and a trailing
      indentation. */
  function NumberedAnswer(a: string, b: string, c: string): string {
    "\n" + (("    1. " + a) + ("\n" + (("    2. " + b) + ("\n" + (("    3. " + c) + ("\n" + "    "))))))
  }

  /** The story is the bounded parse of the first choice. */
  lemma BreakStoryOfContent(content: string)
    ensures BreakStoryIntoScenes([content]) == BoundScenes(ParseScenes(content))
  {}

  /** The numbered answer parses to its three texts. */
  lemma ParseNumberedAnswer(a: string, b: string, c: string)
    requires IsSceneDescription(a) && NoBreaks(a)
    requires IsSceneDescription(b) && NoBreaks(b)
    requires IsSceneDescription(c) && NoBreaks(c)
    ensures ParseScenes(NumberedAnswer(a, b, c)) == [a, b, c]
  {
    var l1, l2, l3, tail := "    1. " + a, "    2. " + b, "    3. " + c, "    ";
    NumberPrefixes();
    AppendNoBreaks("    1. ", a);
    AppendNoBreaks("    2. ", b);
    AppendNoBreaks("    3. ", c);
    SplitNumberedAnswer(l1, l2, l3, tail);
    CleanMarkedLine("    1. ", a);
    CleanMarkedLine("    2. ", b);
    CleanMarkedLine("    3. ", c);
    CleanBlank();
    KeepFive("", l1, l2, l3, tail);
  }

  /** Filtering five lines of which the first and last clean to nothing. */
  lemma KeepFive(l0: string, l1: string, l2: string, l3: string, l4: string)
    requires CleanSceneLine(l0) == [] && CleanSceneLine(l4) == []
    requires CleanSceneLine(l1) != [] && CleanSceneLine(l2) != [] && CleanSceneLine(l3) != []
    ensures KeepScenes([l0] + ([l1] + ([l2] + ([l3] + [l4]))))
      == [CleanSceneLine(l1), CleanSceneLine(l2), CleanSceneLine(l3)]
  {
    var a, b, c := CleanSceneLine(l1), CleanSceneLine(l2), CleanSceneLine(l3);
    var s3 := [l3] + [l4];
    var s2 := [l2] + s3;
    var s1 := [l1] + s2;
    KeepScenesSingle(l0);
    KeepScenesSingle(l1);
    KeepScenesSingle(l2);
    KeepScenesSingle(l3);
    KeepScenesSingle(l4);
    KeepScenesAppend([l3], [l4]);
    KeepScenesAppend([l2], s3);
    KeepScenesAppend([l1], s2);
    KeepScenesAppend([l0], s1);
    Triple(a, b, c);
  }

  /** Three scenes are padded with placeholders 1 to 17. */
  lemma BoundThree(a: string, b: string, c: string)
    ensures var r := BoundScenes([a, b, c]);
      && |r| == 20
      && r[..3] == [a, b, c]
      && r[3] == "Additional scene 1" && r[19] == "Additional scene 17"
  {
    var r := BoundScenes([a, b, c]);
    BoundScenesEntries([a, b, c]);
    PrefixOfPointwise(r, [a, b, c]);
    PlaceholderText();
  }

  /** The test suite's answer shape gives the three texts first, then 17
      placeholders. */
  lemma BreakStoryNumberedAnswer(a: string, b: string, c: string)
    requires IsSceneDescription(a) && NoBreaks(a)
    requires IsSceneDescription(b) && NoBreaks(b)
    requires IsSceneDescription(c) && NoBreaks(c)
    ensures var r := BreakStoryIntoScenes([NumberedAnswer(a, b, c)]);
      && |r| == 20
      && r[..3] == [a, b, c]
      && r[3] == "Additional scene 1" && r[19] == "Additional scene 17"
  {
    BreakStoryOfContent(NumberedAnswer(a, b, c));
    ParseNumberedAnswer(a, b, c);
    BoundThree(a, b, c);
  }

  lemma FirstSceneText()
    ensures IsSceneDescription("First scene description") && NoBreaks("First scene description")
  {}

  lemma SecondSceneText()
    ensures IsSceneDescription("Second scene description") && NoBreaks("Second scene description")
  {}

  lemma ThirdSceneText()
    ensures IsSceneDescription("Third scene description") && NoBreaks("Third scene description")
  {}

  /** The test suite's answer itself. */
  lemma BreakStoryThreeNumberedLines()
    ensures var r := BreakStoryIntoScenes([NumberedAnswer(
        "First scene description", "Second scene description", "Third scene description")]);
      && |r| == 20
      && r[..3] == ["First scene description", "Second scene description", "Third scene description"]
      && r[3] == "Additional scene 1" && r[19] == "Additional scene 17"
  {
    FirstSceneText();
    SecondSceneText();
    ThirdSceneText();
    BreakStoryNumberedAnswer("First scene description", "Second scene description", "Third scene description");
  }
}

=== FILE: sequences.dfy ===
/** Generic facts about sequences that the string and list proofs use as
    stepping stones. Each states one equation Dafny needs spelled out
    before it can rewrite a concatenation or a slice. */
module Sequences {
  lemma AppendAssoc<T>(x: seq<T>, y: seq<T>, z: seq<T>)
    ensures (x + y) + z == x + (y + z)
  {}

  lemma InitLast<T>(s: seq<T>)
    requires s != []
    ensures s[..|s| - 1] + [s[|s| - 1]] == s
  {}

  lemma SliceSplit<T>(s: seq<T>, i: nat, j: nat)
    requires i <= j <= |s|
    ensures s[i..] == s[i..j] + s[j..]
  {}

  lemma PrefixSuffix<T>(s: seq<T>, i: nat)
    requires i <= |s|
    ensures s[..i] + s[i..] == s
  {}

  lemma AppendEmpty<T>(s: seq<T>)
    ensures s + [] == s
  {}

  lemma WholePrefix<T>(s: seq<T>)
    ensures s[..|s|] == s
  {}

  lemma PrefixOfSuffix<T>(s: seq<T>, j: nat, r: seq<T>)
    requires j <= |s| && |r| <= |s| - j
    requires r == s[j..][..|r|]
    ensures s[j..j + |r|] == r
  {}

  lemma PrefixIndex<T>(s: seq<T>, n: nat, j: nat)
    requires j < n <= |s|
    ensures s[..n][j] == s[j]
  {}

  lemma PrefixOfPointwise<T>(r: seq<T>, p: seq<T>)
    requires |p| <= |r|
    requires forall j | 0 <= j < |p| :: r[j] == p[j]
    ensures r[..|p|] == p
  {}
}

=== FILE: strings.dfy ===
/** The parts of Python's `str` that the storyboard core relies on:
    `isspace` (which is also what `\s` matches in a `str` pattern), the line
    boundaries of `splitlines`, `strip`, and the ordering `<` on strings. */
module Strings {
  import opened Sequences

  /** `c.isspace()`: the controls U+0009..U+000D and U+001C..U+001F, the
      space, and the Unicode space separators. */
  predicate IsSpace(c: char) {
    c in SpaceChars
  }

  const SpaceChars: set<char> := {
    '\t', '\n', '\U{0B}', '\U{0C}', '\r', '\U{1C}', '\U{1D}', '\U{1E}', '\U{1F}', ' ',
    '\U{85}', '\U{A0}', '\U{1680}',
    '\U{2000}', '\U{2001}', '\U{2002}', '\U{2003}', '\U{2004}', '\U{2005}', '\U{2006}',
    '\U{2007}', '\U{2008}', '\U{2009}', '\U{200A}',
    '\U{2028}', '\U{2029}', '\U{202F}', '\U{205F}', '\U{3000}'
  }

  /** An ASCII decimal digit. */
  predicate IsDigit(c: char) {
    '0' <= c <= '9'
  }

  /** A character at which `str.splitlines` ends a line. */
  predicate IsLineBreak(c: char) {
    c in LineBreakChars
  }

  const LineBreakChars: set<char> := {
    '\n', '\r', '\U{0B}', '\U{0C}', '\U{1C}', '\U{1D}', '\U{1E}', '\U{85}', '\U{2028}', '\U{2029}'
  }

  predicate NoBreaks(s: string) {
    forall k | 0 <= k < |s| :: !IsLineBreak(s[k])
  }

  predicate AllBreaks(s: string) {
    forall k | 0 <= k < |s| :: IsLineBreak(s[k])
  }

  /** `s.lstrip()`: drops the maximal leading run of whitespace. */
  function TrimStart(s: string): (r: string)
    ensures |r| <= |s| && r == s[|s| - |r|..]
    ensures r == [] || !IsSpace(r[0])
  {
    if |s| > 0 && IsSpace(s[0]) then TrimStart(s[1..]) else s
  }

  /** What `lstrip` removes is whitespace. */
  lemma {:induction false} TrimStartDropsSpace(s: string)
    ensures forall k | 0 <= k < |s| - |TrimStart(s)| :: IsSpace(s[k])
    decreases |s|
  {
    if |s| > 0 && IsSpace(s[0]) {
      var t := s[1..];
      TrimStartDropsSpace(t);
      assert TrimStart(s) == TrimStart(t);
      forall k | 0 <= k < |s| - |TrimStart(s)|
        ensures IsSpace(s[k])
      {
        if k == 0 {
          assert IsSpace(s[0]);
        } else {
          assert k - 1 < |t| - |TrimStart(t)|;
          assert IsSpace(t[k - 1]);
          assert s[k] == t[k - 1];
        }
      }
    }
  }

  /** `s.rstrip()`: drops the maximal trailing run of whitespace. */
  function TrimEnd(s: string): (r: string)
    ensures |r| <= |s| && r == s[..|r|]
    ensures r == [] || !IsSpace(r[|r| - 1])
  {
    if |s| > 0 && IsSpace(s[|s| - 1]) then TrimEnd(s[..|s| - 1]) else s
  }

  /** What `rstrip` removes is whitespace. */
  lemma {:induction false} TrimEndDropsSpace(s: string)
    ensures forall k | |TrimEnd(s)| <= k < |s| :: IsSpace(s[k])
    decreases |s|
  {
    if |s| > 0 && IsSpace(s[|s| - 1]) {
      TrimEndDropsSpace(s[..|s| - 1]);
    }
  }

  /** `s.strip()`: the result neither starts nor ends with whitespace. */
  function Strip(s: string): (r: string)
    ensures |r| <= |s|
    ensures r == [] || (!IsSpace(r[0]) && !IsSpace(r[|r| - 1]))
  {
    var t := TrimStart(s);
    var r := TrimEnd(t);
    assert r == [] || r[0] == t[0];
    r
  }

  /** `r` sits in `s` at offset `i` with only whitespace around it. */
  ghost predicate WhitespaceAround(s: string, r: string, i: nat)
    requires i <= |s| - |r|
  {
    && s[i..i + |r|] == r
    && (forall k | 0 <= k < i :: IsSpace(s[k]))
    && (forall k | i + |r| <= k < |s| :: IsSpace(s[k]))
  }

  /** `strip` removes whitespace only: what it returns is a contiguous
      piece of `s` with nothing but whitespace before and after it. */
  lemma StripIsCut(s: string)
    ensures var i := |s| - |TrimStart(s)|;
      i <= |s| - |Strip(s)| && WhitespaceAround(s, Strip(s), i)
  {
    var t := TrimStart(s);
    var i := |s| - |t|;
    var r := Strip(s);
    assert r == TrimEnd(t) && |r| <= |t|;
    assert s[i..i + |r|] == r by {
      PrefixOfSuffix(s, i, r);
    }
    TrimStartDropsSpace(s);
    assert forall k | i + |r| <= k < |s| :: IsSpace(s[k]) by {
      TrimEndDropsSpace(t);
      forall k | i + |r| <= k < |s|
        ensures IsSpace(s[k])
      {
        assert s[k] == t[k - i];
      }
    }
    assert WhitespaceAround(s, r, i);
  }

  // ---------------------------------------------------------------------
  // str.splitlines
  // ---------------------------------------------------------------------

  /** Position of the first line boundary in `s`, or `|s|` if there is none. */
  function BreakIndex(s: string): (i: nat)
    ensures i <= |s|
    ensures NoBreaks(s[..i])
    ensures i < |s| ==> IsLineBreak(s[i])
  {
    if |s| == 0 || IsLineBreak(s[0]) then 0
    else
      var j := BreakIndex(s[1..]);
      assert s[..1 + j] == [s[0]] + s[1..][..j];
      1 + j
  }

  /** How many characters the boundary at `i` occupies: `\r\n` is one
      boundary of two characters. */
  function BreakWidth(s: string, i: nat): (w: nat)
    requires i <= |s|
    ensures i + w <= |s|
    ensures i < |s| ==> w >= 1
  {
    if i == |s| then 0
    else if s[i] == '\r' && i + 1 < |s| && s[i + 1] == '\n' then 2
    else 1
  }

  lemma BoundaryIsBreaks(s: string, i: nat)
    requires i <= |s| && (i < |s| ==> IsLineBreak(s[i]))
    ensures AllBreaks(s[i..i + BreakWidth(s, i)])
  {}

  /** `s.splitlines()`: the lines of `s` without their boundaries; a final
      boundary does not open an empty last line, and `""` has no lines. */
  function SplitLines(s: string): (lines: seq<string>)
    ensures |lines| <= |s|
    decreases |s|
  {
    if s == [] then []
    else
      var i := BreakIndex(s);
      [s[..i]] + SplitLines(s[i + BreakWidth(s, i)..])
  }

  /** No line contains a boundary. */
  lemma {:induction false} SplitLinesNoBreaks(s: string)
    ensures forall j | 0 <= j < |SplitLines(s)| :: NoBreaks(SplitLines(s)[j])
    decreases |s|
  {
    if s != [] {
      var i := BreakIndex(s);
      var rest := s[i + BreakWidth(s, i)..];
      SplitLinesNoBreaks(rest);
      assert SplitLines(s) == [s[..i]] + SplitLines(rest);
    }
  }

  /** The characters of `s` that are not line boundaries, in order. */
  function RemoveBreaks(s: string): string {
    if s == [] then []
    else (if IsLineBreak(s[0]) then [] else [s[0]]) + RemoveBreaks(s[1..])
  }

  function Concat(lines: seq<string>): string {
    if lines == [] then [] else lines[0] + Concat(lines[1..])
  }

  /** The lines joined with `"\n"`, as `"\n".join(lines)`. */
  function JoinLines(lines: seq<string>): string {
    if |lines| == 0 then []
    else if |lines| == 1 then lines[0]
    else lines[0] + "\n" + JoinLines(lines[1..])
  }

  lemma {:induction false} RemoveBreaksAppend(a: string, b: string)
    ensures RemoveBreaks(a + b) == RemoveBreaks(a) + RemoveBreaks(b)
    decreases |a|
  {
    if a != [] {
      assert (a + b)[1..] == a[1..] + b;
      RemoveBreaksAppend(a[1..], b);
    } else {
      assert a + b == b;
    }
  }

  lemma {:induction false} RemoveBreaksOfLine(s: string)
    requires NoBreaks(s)
    ensures RemoveBreaks(s) == s
    decreases |s|
  {
    if s != [] {
      assert NoBreaks(s[1..]) by {
        forall k | 0 <= k < |s[1..]| ensures !IsLineBreak(s[1..][k]) {
          assert s[1..][k] == s[k + 1];
        }
      }
      RemoveBreaksOfLine(s[1..]);
    }
  }

  lemma {:induction false} RemoveBreaksOfBreaks(s: string)
    requires AllBreaks(s)
    ensures RemoveBreaks(s) == []
    decreases |s|
  {
    if s != [] {
      RemoveBreaksOfBreaks(s[1..]);
    }
  }

  /** Splitting loses only the line boundaries: the lines, concatenated,
      are the text with every boundary character removed. */
  lemma {:induction false} SplitLinesKeepsText(s: string)
    ensures Concat(SplitLines(s)) == RemoveBreaks(s)
    decreases |s|
  {
    if s != [] {
      var i := BreakIndex(s);
      var line, rest := s[..i], s[i + BreakWidth(s, i)..];
      RemoveBreaksAtBoundary(s);
      SplitLinesStep(s);
      ConcatCons(line, SplitLines(rest));
      RemoveBreaksOfLine(line);
      SplitLinesKeepsText(rest);
    }
  }

  lemma SplitLinesStep(s: string)
    requires s != []
    ensures SplitLines(s) == [s[..BreakIndex(s)]] + SplitLines(s[BreakIndex(s) + BreakWidth(s, BreakIndex(s))..])
  {}

  /** Removing the boundaries of `s` removes the first boundary too. */
  lemma RemoveBreaksAtBoundary(s: string)
    requires s != []
    ensures var i := BreakIndex(s);
      RemoveBreaks(s) == RemoveBreaks(s[..i]) + RemoveBreaks(s[i + BreakWidth(s, i)..])
  {
    var i := BreakIndex(s);
    var w := BreakWidth(s, i);
    var line, sep, rest := s[..i], s[i..i + w], s[i + w..];
    assert s == line + (sep + rest) by {
      SliceSplit(s, i, i + w);
      PrefixSuffix(s, i);
    }
    BoundaryIsBreaks(s, i);
    RemoveBreaksAround(line, sep, rest);
  }

  /** A run of boundaries between two texts disappears. */
  lemma RemoveBreaksAround(line: string, sep: string, rest: string)
    requires AllBreaks(sep)
    ensures RemoveBreaks(line + (sep + rest)) == RemoveBreaks(line) + RemoveBreaks(rest)
  {
    RemoveBreaksAppend(line, sep + rest);
    RemoveBreaksAppend(sep, rest);
    RemoveBreaksOfBreaks(sep);
    AppendEmpty(RemoveBreaks(line));
  }

  lemma ConcatCons(x: string, xs: seq<string>)
    ensures Concat([x] + xs) == x + Concat(xs)
  {
    assert ([x] + xs)[1..] == xs;
  }

  /** A non-empty line followed by `"\n"` is split off as the first line. */
  lemma SplitLinesCons(line: string, rest: string)
    requires line != [] && NoBreaks(line)
    ensures SplitLines(line + ("\n" + rest)) == [line] + SplitLines(rest)
  {
    var s := line + ("\n" + rest);
    BreakIndexOfLine(line, "\n" + rest);
    var i := BreakIndex(s);
    assert i == |line| && s[i] == '\n';
    assert BreakWidth(s, i) == 1;
    assert s[..i] == line;
    assert s[i + 1..] == rest;
  }

  /** Every boundary character ends a line, even when the line is empty;
      a `\r` counts alone when no `\n` follows it. */
  lemma SplitLinesAt(line: string, sep: char, rest: string)
    requires NoBreaks(line) && IsLineBreak(sep)
    requires sep == '\r' ==> rest == [] || rest[0] != '\n'
    ensures SplitLines(line + ([sep] + rest)) == [line] + SplitLines(rest)
  {
    var s := line + ([sep] + rest);
    assert BreakIndex(s) == |line| by {
      BreakIndexOfLine(line, [sep] + rest);
    }
    assert BreakWidth(s, |line|) == 1 by {
      assert s[|line|] == sep;
      assert |line| + 1 < |s| ==> s[|line| + 1] == rest[0];
    }
    assert s[..|line|] == line && s[|line| + 1..] == rest;
    SplitLinesAfter(s, line, 1, rest);
  }

  /** `\r\n` is one boundary: it ends one line, not two. */
  lemma SplitLinesAtCRLF(line: string, rest: string)
    requires NoBreaks(line)
    ensures SplitLines(line + ("\r\n" + rest)) == [line] + SplitLines(rest)
  {
    var s := line + ("\r\n" + rest);
    assert BreakIndex(s) == |line| by {
      BreakIndexOfLine(line, "\r\n" + rest);
    }
    assert BreakWidth(s, |line|) == 2 by {
      assert s[|line|] == '\r' && s[|line| + 1] == '\n';
    }
    assert s[..|line|] == line && s[|line| + 2..] == rest;
    SplitLinesAfter(s, line, 2, rest);
  }

  /** One unfolding of `SplitLines` at a boundary already located. */
  lemma SplitLinesAfter(s: string, line: string, w: nat, rest: string)
    requires s != [] && BreakIndex(s) == |line| && BreakWidth(s, |line|) == w
    requires s[..|line|] == line && s[|line| + w..] == rest
    ensures SplitLines(s) == [line] + SplitLines(rest)
  {
    var i := BreakIndex(s);
    SplitLinesStep(s);
    assert i + BreakWidth(s, i) == |line| + w;
    assert [s[..i]] == [line];
  }

  /** A blank line between two lines is kept as an empty line. */
  lemma SplitLinesBlankLine(a: string, b: string)
    requires a != [] && NoBreaks(a) && b != [] && NoBreaks(b)
    ensures SplitLines(a + ("\n" + ("\n" + b))) == [a, "", b]
  {
    SplitLinesSingle(b);
    assert SplitLines("\n" + b) == [""] + [b] by {
      assert NoBreaks([]);
      SplitLinesAt([], '\n', b);
      assert [] + (['\n'] + b) == "\n" + b;
    }
    assert SplitLines(a + ("\n" + ("\n" + b))) == [a] + SplitLines("\n" + b) by {
      SplitLinesAt(a, '\n', "\n" + b);
      assert ['\n'] + ("\n" + b) == "\n" + ("\n" + b);
    }
  }

  /** A non-empty text without boundaries is one line. */
  lemma SplitLinesSingle(line: string)
    requires line != [] && NoBreaks(line)
    ensures SplitLines(line) == [line]
  {
    BreakIndexOfLine(line, []);
    assert line + [] == line;
  }

  lemma {:induction false} BreakIndexOfLine(line: string, rest: string)
    requires NoBreaks(line)
    requires rest == [] || IsLineBreak(rest[0])
    ensures BreakIndex(line + rest) == |line|
    decreases |line|
  {
    if line != [] {
      assert (line + rest)[1..] == line[1..] + rest;
      assert NoBreaks(line[1..]) by {
        forall k | 0 <= k < |line[1..]| ensures !IsLineBreak(line[1..][k]) {
          assert line[1..][k] == line[k + 1];
        }
      }
      BreakIndexOfLine(line[1..], rest);
    } else {
      assert line + rest == rest;
    }
  }

  /** `"\n".join` and `splitlines` are inverse on non-empty lines free of
      boundaries. */
  lemma {:induction false} SplitJoinLines(lines: seq<string>)
    requires forall j | 0 <= j < |lines| :: lines[j] != [] && NoBreaks(lines[j])
    ensures SplitLines(JoinLines(lines)) == lines
    decreases |lines|
  {
    if |lines| == 1 {
      SplitLinesSingle(lines[0]);
    } else if |lines| > 1 {
      SplitLinesCons(lines[0], JoinLines(lines[1..]));
      JoinLinesCons(lines);
      assert forall j | 0 <= j < |lines[1..]| :: lines[1..][j] == lines[j + 1];
      SplitJoinLines(lines[1..]);
    }
  }

  lemma JoinLinesCons(lines: seq<string>)
    requires |lines| > 1
    ensures JoinLines(lines) == lines[0] + ("\n" + JoinLines(lines[1..]))
  {
    AppendAssoc(lines[0], "\n", JoinLines(lines[1..]));
  }

  // ---------------------------------------------------------------------
  // Ordering
  // ---------------------------------------------------------------------

  /** Python's `a < b` on strings: compare code points at the first
      difference; a proper prefix is smaller. */
  predicate LexLess(a: string, b: string) {
    if |a| == 0 then |b| > 0
    else if |b| == 0 then false
    else if a[0] != b[0] then a[0] < b[0]
    else LexLess(a[1..], b[1..])
  }

  lemma {:induction false} LexLessIrreflexive(a: string)
    ensures !LexLess(a, a)
    decreases |a|
  {
    if a != [] {
      LexLessIrreflexive(a[1..]);
    }
  }

  /** `<` on strings is a strict total order: of two different strings
      exactly one is smaller, and neither of two equal ones. */
  lemma {:induction false} LexLessTotal(a: string, b: string)
    ensures a != b <==> LexLess(a, b) || LexLess(b, a)
    ensures !(LexLess(a, b) && LexLess(b, a))
    decreases |a|
  {
    if a != [] && b != [] && a[0] == b[0] {
      LexLessTotal(a[1..], b[1..]);
      assert a == [a[0]] + a[1..] && b == [b[0]] + b[1..];
    }
  }

  /** A shared prefix does not affect the comparison. */
  lemma {:induction false} LexLessCommonPrefix(p: string, a: string, b: string)
    ensures LexLess(p + a, p + b) == LexLess(a, b)
    decreases |p|
  {
    if p != [] {
      assert (p + a)[1..] == p[1..] + a;
      assert (p + b)[1..] == p[1..] + b;
      LexLessCommonPrefix(p[1..], a, b);
    } else {
      assert p + a == a && p + b == b;
    }
  }

  /** When two strings of equal length differ, what follows them does not
      affect the comparison. */
  lemma {:induction false} LexLessDecided(a: string, b: string, s: string, t: string)
    requires |a| == |b| && a != b
    ensures LexLess(a + s, b + t) == LexLess(a, b)
    decreases |a|
  {
    if a[0] == b[0] {
      assert (a + s)[1..] == a[1..] + s;
      assert (b + t)[1..] == b[1..] + t;
      assert a[1..] != b[1..] by {
        assert a == [a[0]] + a[1..] && b == [b[0]] + b[1..];
      }
      LexLessDecided(a[1..], b[1..], s, t);
    }
  }

  /** On three-character strings, `<` compares position by position. */
  lemma LexLess3(a: string, b: string)
    requires |a| == 3 && |b| == 3
    ensures LexLess(a, b) <==>
      (a[0] < b[0] || (a[0] == b[0] && (a[1] < b[1] || (a[1] == b[1] && a[2] < b[2]))))
  {
    assert a[1..][1..] == a[2..] && b[1..][1..] == b[2..];
    assert LexLess(a[2..], b[2..]) == (a[2] < b[2]) by {
      assert a[2..][1..] == [] && b[2..][1..] == [];
    }
  }
}
